=== FILE: README.md ===
# Daily and Weekly Levels: the sync-and-dedupe core in Dafny

A model of the logic that lets the mod mark Geometry Dash levels that have
been a daily or weekly level.  The mod keeps, in its save data, one flag per
level ID that has ever been featured.  It fills that set once from a bundled
snapshot (`loadFile`), then, whenever the level browser opens, pages through
the server's daily and weekly lists (`saveLevels`), saving new IDs until a
page shows three already-saved ones.  On the first page of a chain that
rewinds the list to page 0 and stops syncing it for the session; on the
second page the page budget applies first, so the saved page advances by
one instead and the session flag stays clear (`Sync.StepBudget`).  `wasDaily` answers the badge
question from the saved set.

Modules, one per concern of `src/funcs.hpp` and `src/main.cpp`:

- `Tokens` (`tokens.dfy`): `splitString` with `std::getline` semantics, and its round trips with joining.
- `Numbers` (`numbers.dfy`): `std::stoi` (whitespace, sign, digit prefix, `None` for no digits) and `std::to_string`, with `stoi(to_string(n)) == n`.
- `Parser` (`parser.dfy`): `parseData`, both as written (`ParseData`, which needs every read slot and field to exist) and bounded (`ParseIds`, which treats a missing slot or field as the end of the page).
- `SaveData` (`savedata.dfy`): the save data (`Store`), `wasDaily`, `loadFile`, and the insert of the level shown as the current daily or weekly.
- `Sync` (`sync.dfy`): the page walk with its three-duplicate stop, one `saveLevels` callback as a pure `Step`, the chain of callbacks over a sequence of request outcomes (`RunFrom`), and the gating in `LevelBrowserLayer::init`.
- `Options` (`options.dfy`): the `Option` type.

Abstractions:

- The save data is a record: the set of level IDs whose key is set, `dailyPage`, `weeklyPage` (0 when never written) and `loaded` (false when never written).  Keys are `std::to_string(id)`; `Numbers.ToDecimalInjective` shows distinct IDs have distinct keys, so a set of IDs stands for them.
- The two globals `dailySaved`/`weeklySaved` sit beside the save data in `Sync.Engine`.
- The server request is a parameter: each request resolves to `Response(text)` or `Failure(error)`; the end of the list is the response text `-1`, compared character by character (`Sync.NoLevels`), which `Sync.NoLevelsIsMinusOne` shows is the code's string comparison.
- The snapshot file is given as its lines; a file that cannot be opened is the empty sequence of lines.
- The badge setting read before the current-daily insert is a boolean parameter.
- The page budget is as written: `pagesChecked++` and then `pagesChecked + 1` passed to the next call, so a chain started with 0 makes at most two requests and moves the saved page by at most two (`Sync.RunBudget`), although `maxPages` is 3.

## Model

| member | source | states |
|---|---|---|
| Tokens.Split | src/funcs.hpp:5-12 | the result is empty exactly when the input is: `getline` extracts nothing from an empty stream and at least one token from any other |
| Tokens.SplitHasNoDelimiter | src/funcs.hpp:9-11 | no token contains the delimiter, since each `getline` call stops at it |
| Tokens.JoinOfSplit | src/funcs.hpp:9-11 | joining the tokens with the delimiter gives the input back, except that a final delimiter is dropped; empty input gives no tokens |
| Tokens.SplitOfJoinTrailing | src/funcs.hpp:5-12 | delimiter-free tokens joined and followed by one delimiter split back into exactly those tokens (a trailing delimiter adds no empty token) |
| Tokens.SplitOfJoin | src/funcs.hpp:5-12 | delimiter-free tokens whose last one is not empty split back from their join |
| Numbers.Stoi | src/funcs.hpp:24 | `std::stoi`: no ensures of its own; `Numbers.StoiOfDecimal` and `Numbers.StoiOfDecimalPrefix` fix the value it reads, `Numbers.StoiNeedsDigit` the no-digit failure and `Numbers.StoiSkipsSpace` the leading whitespace |
| Numbers.ToDecimal | src/main.cpp:45 | `std::to_string` writes digits only, or `-` followed by digits, never the empty string; `Numbers.StoiOfDecimal` reads it back and `Numbers.ToDecimalInjective` shows distinct IDs give distinct keys |
| Numbers.StoiOfDecimalPrefix | src/funcs.hpp:24 | `stoi` reads the number written by `to_string` even when non-digit text follows it (`12abc` reads as 12) |
| Numbers.StoiOfDecimal | src/main.cpp:44-45 | `stoi(to_string(n)) == n` for every integer |
| Numbers.ToDecimalInjective | src/main.cpp:45 | distinct level IDs get distinct save-data keys |
| Numbers.StoiNeedsDigit | src/main.cpp:43-48 | text without a digit never parses, so such a token is skipped |
| Numbers.StoiSkipsSpace | src/funcs.hpp:24 | leading whitespace does not change what `stoi` reads |
| Parser.IdsFrom | src/funcs.hpp:20-31 | from slot k on: at most the slots left below 10 and present; element j is the ID of slot k+j; the slot where the walk stops holds no ID |
| Parser.ParseIds | src/funcs.hpp:16-34 | a page yields at most 10 IDs |
| Parser.ParseIdsSpec | src/funcs.hpp:16-34 | no more IDs than there are slots; element k is the `stoi` of field 1 of slot k, in slot order; the first slot below 10 that does not contribute has no readable ID |
| Parser.ParseData | src/funcs.hpp:16-34 | the as-written loop, on a body where every slot it reads exists and has field 1 and no ID overflows, returns exactly `ParseIds` |
| Parser.ParseIdsOfWalk | src/funcs.hpp:20-31 | any list that matches the slot IDs one for one and ends at the first slot without an ID, or after ten, is exactly `ParseIds` |
| Parser.ParseIdsStopsAtFirstFailure | src/funcs.hpp:23-31 | when slot t is the first without an ID, exactly the IDs of slots 0..t-1 come back, in order, and none from later slots |
| Parser.ParseIdsFullPage | src/funcs.hpp:20-26 | ten slots that all hold an ID give exactly ten IDs |
| Parser.ShortBodyReadsPastEnd | src/funcs.hpp:20-21 | the one-slot body `1:5` holds level 5, yet the as-written loop reads a second slot that does not exist |
| SaveData.TokenId | src/main.cpp:40-48 | the ID a snapshot token adds (none for an empty token or one `stoi` rejects); no ensures of its own, characterised through `SaveData.ImportTokens` and `SaveData.LoadFile`, whose contracts are in its terms |
| SaveData.WasDaily | src/main.cpp:131-134 | `wasDaily`: no ensures of its own; `SaveData.WasDailyFresh`, `SaveData.WasDailyAfterImport`, `SaveData.WasDailyAfterShown` and `Sync.WasDailyAfterRun` state what it reports after each operation |
| SaveData.ImportTokens | src/main.cpp:39-49 | every non-empty token that parses is saved, nothing already saved is removed, and nothing else is added |
| SaveData.ImportLines | src/main.cpp:37-50 | the saved set only grows and gains only IDs read from the lines |
| SaveData.ImportLinesRecordsAll | src/main.cpp:37-45 | every parsing token of every line is saved by the end |
| SaveData.LoadFile | src/main.cpp:31-54 | afterwards the saved set is exactly the earlier set plus the snapshot's parsing tokens; `loaded` is true whatever the tokens were; the pages are untouched |
| SaveData.ExampleLineTokens | src/main.cpp:38 | the line `1,2,x,3,` splits into 1, 2, x, 3 with no empty token for the trailing comma |
| SaveData.ExampleImport | src/main.cpp:39-49 | importing 1, 2, x, 3 saves {1, 2, 3}, skipping `x` |
| SaveData.RecordShownLevel | src/main.cpp:175-181 | showing a level adds at most that level and changes nothing else; the level is saved exactly when the badge setting (`levelcell`) is on and the current daily ID is not 0, and otherwise the save data is left as it was |
| SaveData.WasDailyFresh | src/main.cpp:131-134 | before anything was saved no level is reported |
| SaveData.WasDailyAfterImport | src/main.cpp:131-134 | after the import a level is reported exactly when it was before or is in the snapshot |
| SaveData.WasDailyAfterShown | src/main.cpp:178-184 | the shown current daily or weekly is reported from then on, other answers are unchanged, and with the badge setting off nothing is saved |
| Sync.WalkFrom | src/main.cpp:84-99 | the walk never removes a saved ID and adds only IDs of the page |
| Sync.Walk | src/main.cpp:80-99 | the page walk only adds IDs, and only IDs of the page; `Sync.WalkSpec` states exactly which |
| Sync.WalkFromSpec | src/main.cpp:80-99 | continuing a walk from any position: it ends all new exactly when the page's duplicate count stays below 3, saving the whole page; otherwise it stops at the third duplicate, having saved just the IDs before it |
| Sync.WalkSpec | src/main.cpp:80-99 | the saved set only grows; `allNew` is false exactly when the running duplicate count reaches 3; then the ID that makes the third duplicate and all later IDs are not saved, otherwise every ID is |
| Sync.DupesOfDistinct | src/main.cpp:86-87 | on a page without repeated IDs the duplicates are the IDs saved before the page |
| Sync.FewKnownAllNew | src/main.cpp:84-99 | a page of distinct IDs with fewer than 3 already saved is saved whole and stays all new |
| Sync.WalkExample | src/main.cpp:80-99 | page 5, 7, 9, 11 against saved 7, 9, 11 saves 5 and stops at 11, not all new |
| Sync.Step | src/main.cpp:57-128 | one callback only grows the saved set, and only by IDs of the page; leaves `loaded` and the other feed alone; never clears a session flag; its page becomes the old page, the next page or 0; continuing passes `pagesChecked + 2`; the flag is set only with page 0 and `allNew` false |
| Sync.NoLevelsIsMinusOne | src/main.cpp:73 | the end-of-list test holds exactly for the response text `-1` |
| Sync.StepNoPage | src/main.cpp:73-76 | a `-1` response, and likewise a failed request (lines 124-127), calls back `false` and changes nothing |
| Sync.StepRecordsPage | src/main.cpp:79-99 | after a page the saved set is the old set plus the whole page when it had fewer than 3 duplicates, or plus the IDs before the third duplicate |
| Sync.StepContinue | src/main.cpp:102-108 | the chain continues exactly when the page was all new and `pagesChecked + 1 < 3`; it then saves page+1 and recurses with `pagesChecked + 2`, flag unchanged |
| Sync.StepBudget | src/main.cpp:110-114 | with `pagesChecked + 1 >= 3` the callback gets the page's `allNew`, page+1 is saved and the session flag is unchanged |
| Sync.StepReset | src/main.cpp:116-121 | a page that is not all new inside the budget rewinds to page 0, sets the session flag and calls back `false`; no other case sets the flag |
| Sync.RunFrom | src/main.cpp:57-128 | a chain uses at most the request outcomes it is given, at least one when any is left; a callback that finishes ends the chain after that one answer, leaving exactly that callback's state and passing on its value, and one that continues goes on to the next outcome when there is one; the saved set only grows and only by IDs of fetched pages; the other feed and `loaded` are untouched |
| Sync.Run | src/main.cpp:150 | `saveLevels(0, …)` uses at most the outcomes it is given and at least one when there is any; the saved set only grows; `loaded` and the other feed are untouched |
| Sync.RunConverges | src/main.cpp:79-121 | a first page with three already-saved IDs ends the chain after one request, saving the IDs before the third one, rewinding the feed to page 0, setting the session flag and calling back `false` |
| Sync.RunTwoPages | src/main.cpp:79-113 | when the first page is all new the chain fetches a second page, which exhausts the budget: exactly two requests, the page advances by two, the session flag is unchanged, the saved set is what the two walks left and the callback gets the second page's `allNew` |
| Sync.RunBudget | src/main.cpp:102-113 | a chain started with `pagesChecked` 0 makes at most two requests, ends once two answers came, and leaves its page at 0 or advanced by at most 2 |
| Sync.LastRun | src/main.cpp:102-113 | a call with `pagesChecked` 2 ends after one answer |
| Sync.ImportIfDue | src/main.cpp:143-145 | the import runs only while `loaded` is false, and then the saved set becomes exactly the old set plus every ID the snapshot lists and `loaded` is set; with `loaded` true nothing changes |
| Sync.SyncIfDue | src/main.cpp:148-160 | a feed whose session flag is set makes no request and changes nothing; a feed whose flag is clear runs the whole chain (`Sync.Run`), which makes at least one request when an outcome is available |
| Sync.BrowserInit | src/main.cpp:139-163 | afterwards `loaded` holds and the saved set has only grown; a due import saved the snapshot; a feed already synced this session makes no request, keeps its page and stays flagged; a feed not yet synced makes at least one request when an outcome is available |
| Sync.InitConvergesDaily | src/main.cpp:143-153 | an `init` whose daily chain meets a first page holding a level already saved makes one daily request, leaves the daily page at 0 and sets the daily flag, so the next `init` stays quiet (`Sync.ConvergedFeedIsQuiet`) |
| Sync.InitConvergesWeekly | src/main.cpp:155-160 | the same for the weekly feed once the daily feed is flagged: one weekly request, the weekly page left at 0 and the weekly flag set |
| Sync.ConvergedFeedIsQuiet | src/main.cpp:148-153 | once the daily feed is flagged, the next `init` makes no daily request |
| Sync.ImportRunsOnce | src/main.cpp:143-145 | with `loaded` set, `init` does the same whatever the snapshot holds |
| Sync.WasDailyAfterRun | src/main.cpp:131-134 | after a chain every level reported before still is, and a newly reported level appeared on a fetched page |

## Left out

- The request itself (`web::AsyncWebRequest`, POST body, URL, secret; src/main.cpp:65-70): foreign I/O, replaced by a `Fetch` outcome per request.
- `saveFile` (src/main.cpp:21-28): unused by the mod.
- Opening and reading the snapshot file in `loadFile` (src/main.cpp:33-37, 51): file I/O; the model takes the file's lines.
- All drawing code: `LevelCell::loadCustomLevelCell` apart from the current-daily insert (src/main.cpp:167-253) and `LevelInfoLayer::init` (src/main.cpp:256-312); the settings queries at src/main.cpp:175 and 263 are external and become a parameter where they gate the model.
- Concurrency: the daily and weekly chains run interleaved in the mod; the model runs the daily chain to its end and then the weekly one against the shared set.  A second `init` while a request is still in flight, which could start a second chain of the same feed, is not modelled.
- Logging calls: no effect on state.
- `std::stoi` overflow (`std::out_of_range`), which the code never catches: excluded by precondition (`SaveData.SnapshotFits`, `Sync.FetchFits`); the precondition requires every ID of every snapshot token and of every given response to fit a 32-bit `int`, including responses a chain ends before reaching.
- 32-bit wrap-around of `page + 1` and `pagesChecked`: integers are unbounded; the page only ever grows by one per request from a non-negative start.
- Parser.ParseData: reading past the end of `levels` or `leveldata` is undefined behaviour in C++; the as-written method excludes it by precondition, and the rest of the model uses the bounded `Parser.ParseIds` (see Findings).
- The construction of a fresh process (globals false, save data as persisted) is not a separate operation: any `Sync.Engine` value can be the starting state.

## Findings

| source | as written | input that shows it | evidently intended | confidence | as-written member | corrected member |
|---|---|---|---|---|---|---|
| src/funcs.hpp:20-24 | `levels[i]` is read for every i below 10 and `leveldata[1]` for every read slot, with no check against the vectors' sizes | the body `1:5`: one slot, holding level 5, so the loop goes on to `levels[1]`, which does not exist | a missing slot, or a slot without field 1, ends the page like an unparseable ID does | medium; not executed | Parser.ParseData, Parser.ShortBodyReadsPastEnd | Parser.ParseIds |

=== FILE: numbers.dfy ===
/**
 * Decimal integers as the mod reads and writes them: `std::stoi` parses a
 * token (funcs.hpp, main.cpp) and `std::to_string` turns a level ID into its
 * save-data key (main.cpp).
 */
module Numbers {
  import opened Options

  const INT_MIN: int := -0x8000_0000
  const INT_MAX: int := 0x7fff_ffff

  /** The values a 32-bit C++ `int` holds. */
  predicate IsInt32(v: int) {
    INT_MIN <= v <= INT_MAX
  }

  /** `isspace` in the C locale: space, tab, newline, vertical tab, form feed, carriage return. */
  predicate IsSpace(c: char) {
    c == ' ' || '\t' <= c <= '\r'
  }

  predicate IsDigit(c: char) {
    '0' <= c <= '9'
  }

  predicate AllDigits(s: string) {
    forall j :: 0 <= j < |s| ==> IsDigit(s[j])
  }

  function DigitValue(c: char): nat
    requires IsDigit(c)
  {
    (c as int) - ('0' as int)
  }

  function DigitChar(v: nat): (c: char)
    requires v < 10
    ensures IsDigit(c) && DigitValue(c) == v
  {
    ('0' as int + v) as char
  }

  /** Length of the run of whitespace `s` starts with. */
  function SpaceRun(s: string): (n: nat)
    ensures n <= |s|
    ensures forall j :: 0 <= j < n ==> IsSpace(s[j])
    ensures n < |s| ==> !IsSpace(s[n])
  {
    if |s| > 0 && IsSpace(s[0]) then 1 + SpaceRun(s[1..]) else 0
  }

  /** Length of the run of digits `s` starts with. */
  function DigitRun(s: string): (n: nat)
    ensures n <= |s|
    ensures AllDigits(s[..n])
    ensures n < |s| ==> !IsDigit(s[n])
  {
    if |s| > 0 && IsDigit(s[0]) then
      var n := 1 + DigitRun(s[1..]);
      assert s[..n] == [s[0]] + s[1..][..n - 1];
      n
    else 0
  }

  /** Base-10 value of a digit string, most significant digit first. */
  function DigitsValue(ds: string): nat
    requires AllDigits(ds)
  {
    if |ds| == 0 then 0
    else
      assert AllDigits(ds[..|ds| - 1]);
      10 * DigitsValue(ds[..|ds| - 1]) + DigitValue(ds[|ds| - 1])
  }

  /**
   * `std::stoi(s)` in base 10: skip leading whitespace, take an optional sign,
   * then the longest run of digits; whatever follows is ignored.  No digit
   * at all is `std::invalid_argument`, here `None`.  The value is the
   * mathematical one: callers exclude `std::out_of_range` by requiring
   * `StoiFits`.
   */
  function Stoi(s: string): Option<int>
  {
    SignedDigits(s[SpaceRun(s)..])
  }

  /** What `std::stoi` reads once the whitespace is skipped. */
  function SignedDigits(t: string): Option<int>
  {
    if |t| > 0 && t[0] == '-' then
      match Unsigned(t[1..])
      case None => None
      case Some(v) => Some(-v)
    else if |t| > 0 && t[0] == '+' then Unsigned(t[1..])
    else Unsigned(t)
  }

  /** The value of the longest run of digits `u` starts with, if there is one. */
  function Unsigned(u: string): Option<int>
  {
    var n := DigitRun(u);
    if n == 0 then None else Some(DigitsValue(u[..n]))
  }

  /** `std::stoi(s)` does not throw `std::out_of_range`. */
  predicate StoiFits(s: string) {
    match Stoi(s)
    case None => true
    case Some(v) => IsInt32(v)
  }

  /** Decimal digits of a natural number, without leading zeros. */
  function NatDigits(n: nat): (ds: string)
    ensures |ds| > 0 && AllDigits(ds)
  {
    if n < 10 then [DigitChar(n)]
    else
      var ds := NatDigits(n / 10) + [DigitChar(n % 10)];
      assert forall j :: 0 <= j < |ds| - 1 ==> ds[j] == NatDigits(n / 10)[j];
      ds
  }

  /** `std::to_string(n)` for an integer `n`. */
  function ToDecimal(n: int): (r: string)
    ensures n >= 0 ==> |r| > 0 && AllDigits(r)
    ensures n < 0 ==> |r| > 1 && r[0] == '-' && AllDigits(r[1..])
  {
    if n < 0 then ['-'] + NatDigits(-n) else NatDigits(n)
  }

  lemma {:induction false} DigitsValueOfNatDigits(n: nat)
    ensures DigitsValue(NatDigits(n)) == n
  {
    if n >= 10 {
      DigitsValueOfNatDigits(n / 10);
      var ds := NatDigits(n);
      assert ds[..|ds| - 1] == NatDigits(n / 10);
    }
  }

  /** A digit run ends exactly where the digits end. */
  lemma {:induction false} DigitRunOfDigits(a: string, rest: string)
    requires AllDigits(a)
    requires |rest| == 0 || !IsDigit(rest[0])
    ensures DigitRun(a + rest) == |a|
  {
    if |a| == 0 {
      assert a + rest == rest;
    } else {
      assert (a + rest)[0] == a[0];
      assert (a + rest)[1..] == a[1..] + rest;
      DigitRunOfDigits(a[1..], rest);
    }
  }

  /**
   * `stoi` reads back what `to_string` wrote, even when other text follows
   * that does not start with a digit (`"12abc"` reads as 12).
   */
  lemma {:induction false} StoiOfDecimalPrefix(n: int, rest: string)
    requires |rest| == 0 || !IsDigit(rest[0])
    ensures Stoi(ToDecimal(n) + rest) == Some(n)
  {
    var m := if n < 0 then -n else n;
    var ds := NatDigits(m);
    DigitsValueOfNatDigits(m);
    if n < 0 {
      assert ToDecimal(n) + rest == ['-'] + (ds + rest);
      StoiOfNegativeDigits(ds, rest);
    } else {
      assert ToDecimal(n) + rest == ds + rest;
      StoiOfDigits(ds, rest);
    }
  }

  /** Digits followed by text not starting with a digit read as their value. */
  lemma {:induction false} StoiOfDigits(ds: string, rest: string)
    requires |ds| > 0 && AllDigits(ds)
    requires |rest| == 0 || !IsDigit(rest[0])
    ensures Stoi(ds + rest) == Some(DigitsValue(ds))
  {
    var x := ds + rest;
    UnsignedDigits(ds, rest);
    assert IsDigit(x[0]);
    StoiNoSpace(x);
  }

  /** The same after a minus sign: the negated value. */
  lemma {:induction false} StoiOfNegativeDigits(ds: string, rest: string)
    requires |ds| > 0 && AllDigits(ds)
    requires |rest| == 0 || !IsDigit(rest[0])
    ensures Stoi(['-'] + (ds + rest)) == Some(-(DigitsValue(ds) as int))
  {
    var x := ds + rest;
    var s := ['-'] + x;
    assert s[0] == '-' && s[1..] == x;
    UnsignedDigits(ds, rest);
    StoiNoSpace(s);
    NegativeSign(s, DigitsValue(ds));
  }

  /** After a minus sign, the negated value of the digits that follow. */
  lemma NegativeSign(s: string, v: int)
    requires |s| > 0 && s[0] == '-' && Unsigned(s[1..]) == Some(v)
    ensures SignedDigits(s) == Some(-v)
  {
  }

  /** Text that does not start with whitespace is read from its first character. */
  lemma StoiNoSpace(s: string)
    requires |s| > 0 && !IsSpace(s[0])
    ensures Stoi(s) == SignedDigits(s)
  {
    assert s[0..] == s;
  }

  /** A digit string followed by text not starting with a digit reads as its value. */
  lemma UnsignedDigits(ds: string, rest: string)
    requires |ds| > 0 && AllDigits(ds)
    requires |rest| == 0 || !IsDigit(rest[0])
    ensures Unsigned(ds + rest) == Some(DigitsValue(ds))
  {
    DigitRunOfDigits(ds, rest);
    assert (ds + rest)[..|ds|] == ds;
  }

  /** Round trip: `stoi(to_string(n)) == n`. */
  lemma StoiOfDecimal(n: int)
    ensures Stoi(ToDecimal(n)) == Some(n)
  {
    StoiOfDecimalPrefix(n, []);
    assert ToDecimal(n) + [] == ToDecimal(n);
  }

  /** Distinct level IDs have distinct save-data keys, so a set of IDs models the keys. */
  lemma ToDecimalInjective(a: int, b: int)
    requires ToDecimal(a) == ToDecimal(b)
    ensures a == b
  {
    StoiOfDecimal(a);
    StoiOfDecimal(b);
  }

  /** Text with no digit in it never parses. */
  lemma {:induction false} StoiNeedsDigit(s: string)
    requires forall j :: 0 <= j < |s| ==> !IsDigit(s[j])
    ensures Stoi(s) == None
  {
    var t := s[SpaceRun(s)..];
    var u := if |t| > 0 && (t[0] == '-' || t[0] == '+') then t[1..] else t;
    if |u| > 0 {
      assert u == s[|s| - |u|..];
      assert u[0] == s[|s| - |u|];
    }
  }

  /** Leading whitespace does not change what `stoi` reads. */
  lemma {:induction false} StoiSkipsSpace(w: string, s: string)
    requires forall j :: 0 <= j < |w| ==> IsSpace(w[j])
    ensures Stoi(w + s) == Stoi(s)
  {
    SpaceRunOfSpace(w, s);
    var k := SpaceRun(s);
    assert (w + s)[|w|..] == s;
    assert (w + s)[|w| + k..] == (w + s)[|w|..][k..];
  }

  lemma {:induction false} SpaceRunOfSpace(w: string, s: string)
    requires forall j :: 0 <= j < |w| ==> IsSpace(w[j])
    ensures SpaceRun(w + s) == |w| + SpaceRun(s)
  {
    if |w| > 0 {
      assert (w + s)[0] == w[0];
      assert (w + s)[1..] == w[1..] + s;
      SpaceRunOfSpace(w[1..], s);
    } else {
      assert w + s == s;
    }
  }
}

=== FILE: options.dfy ===
/** An optional value: what a parse that may fail returns. */
module Options {

  datatype Option<+T> = None | Some(value: T)
}

=== FILE: parser.dfy ===
/**
 * `parseData` of funcs.hpp: a server page is `|`-separated level slots, each
 * a `:`-separated field list whose field 1 is the level ID.  Slots 0..9 are
 * read in order and reading stops at the first slot whose field 1 does not
 * parse as an integer.
 */
module Parser {
  import opened Options
  import opened Tokens
  import opened Numbers

  /** Slots read per page. */
  const SLOTS: nat := 10

  /** Sub-field 1 of a slot, when the slot has one. */
  function IdField(slot: string): Option<string>
  {
    var fields := Split(slot, ':');
    if |fields| < 2 then None else Some(fields[1])
  }

  /** The level ID a slot holds: its sub-field 1 read with `stoi`. */
  function SlotId(slot: string): Option<int>
  {
    match IdField(slot)
    case None => None
    case Some(f) => Stoi(f)
  }

  /** The ID of every slot, whether or not the walk reaches it. */
  function SlotIds(slots: seq<string>): (r: seq<Option<int>>)
    ensures |r| == |slots|
    ensures forall k :: 0 <= k < |slots| ==> r[k] == SlotId(slots[k])
  {
    seq(|slots|, k requires 0 <= k < |slots| => SlotId(slots[k]))
  }

  /**
   * IDs from slot `k` on, below slot 10.  A missing slot and a slot without
   * an ID (no field 1, or a field 1 that does not parse) both end the page.
   */
  function IdsFrom(ids: seq<Option<int>>, k: nat): (r: seq<int>)
    requires k <= SLOTS
    ensures k + |r| <= SLOTS
    ensures |r| > 0 ==> k + |r| <= |ids|
    ensures forall j :: 0 <= j < |r| ==> ids[k + j] == Some(r[j])
    ensures k + |r| < SLOTS && k + |r| < |ids| ==> ids[k + |r|].None?
    decreases SLOTS - k
  {
    if k == SLOTS || k >= |ids| then []
    else
      match ids[k]
      case None => []
      case Some(id) => [id] + IdsFrom(ids, k + 1)
  }

  /**
   * The IDs a page body yields, in slot order, with every slot read bounded
   * by the number of slots actually present (`ParseIdsSpec` states which).
   */
  function ParseIds(body: string): (r: seq<int>)
    ensures |r| <= SLOTS
  {
    IdsFrom(SlotIds(Split(body, '|')), 0)
  }

  /**
   * What `ParseIds` yields: no more IDs than there are slots; element k is
   * the ID of slot k; the first slot below 10 not contributing has no ID.
   */
  lemma ParseIdsSpec(body: string)
    ensures |ParseIds(body)| <= |Split(body, '|')|
    ensures forall k :: 0 <= k < |ParseIds(body)| ==> SlotId(Split(body, '|')[k]) == Some(ParseIds(body)[k])
    ensures |ParseIds(body)| < SLOTS && |ParseIds(body)| < |Split(body, '|')| ==>
      SlotId(Split(body, '|')[|ParseIds(body)|]).None?
  {
    var slots := Split(body, '|');
    var r := ParseIds(body);
    assert forall k :: 0 <= k < |r| ==> SlotIds(slots)[0 + k] == Some(r[k]);
  }

  /**
   * The reads of `parseData` as written stay in bounds: every slot the loop
   * reaches exists and has a field 1.
   */
  predicate IndexSafeFrom(slots: seq<string>, k: nat)
    requires k <= SLOTS
    decreases SLOTS - k
  {
    k == SLOTS ||
    (k < |slots| && |Split(slots[k], ':')| >= 2 &&
      (Stoi(Split(slots[k], ':')[1]).Some? ==> IndexSafeFrom(slots, k + 1)))
  }

  predicate IndexSafe(body: string) {
    IndexSafeFrom(Split(body, '|'), 0)
  }

  /**
   * `parseData` as written: `levels[i]` and `leveldata[1]` are read without a
   * bounds check, so the caller must supply a body on which they stay in
   * bounds; `stoi` must not overflow.  On such bodies it yields `ParseIds`.
   */
  method ParseData(body: string) returns (ids: seq<int>)
    requires IndexSafe(body)
    requires forall id <- ParseIds(body) :: IsInt32(id)
    ensures ids == ParseIds(body)
    ensures |ids| <= SLOTS
  {
    var levels := Split(body, '|');
    ghost var slotIds := SlotIds(levels);
    ids := [];
    var i := 0;
    while i < SLOTS
      invariant 0 <= i <= SLOTS && i <= |levels|
      invariant |ids| == i
      invariant IndexSafeFrom(levels, i)
      invariant forall j :: 0 <= j < i ==> slotIds[j] == Some(ids[j])
    {
      SlotRead(levels, i);
      var level := levels[i];
      var leveldata := Split(level, ':');
      var id := Stoi(leveldata[1]);
      assert slotIds[i] == id;
      if id.None? {
        break;
      }
      ids := ids + [id.value];
      i := i + 1;
    }
    IdsFromOfWalk(slotIds, ids, 0);
    assert ids[0..] == ids;
  }

  /** What one pass of the `parseData` loop may read, and what it gets. */
  lemma SlotRead(slots: seq<string>, i: nat)
    requires i < SLOTS && IndexSafeFrom(slots, i)
    ensures i < |slots| && |Split(slots[i], ':')| >= 2
    ensures SlotId(slots[i]) == Stoi(Split(slots[i], ':')[1])
    ensures SlotId(slots[i]).Some? ==> IndexSafeFrom(slots, i + 1)
  {
  }

  /** A walk that read every slot up to its first failure, or all ten, has read `ParseIds`. */
  lemma ParseIdsOfWalk(body: string, ids: seq<int>)
    requires |ids| <= SLOTS && |ids| <= |Split(body, '|')|
    requires forall j :: 0 <= j < |ids| ==> SlotId(Split(body, '|')[j]) == Some(ids[j])
    requires |ids| < SLOTS ==> |ids| < |Split(body, '|')| && SlotId(Split(body, '|')[|ids|]).None?
    ensures ids == ParseIds(body)
  {
    var opt := SlotIds(Split(body, '|'));
    IdsFromOfWalk(opt, ids, 0);
    assert ids[0..] == ids;
  }

  /**
   * `IdsFrom` from slot `k` yields the rest of `r` when the slot IDs from `k`
   * on are those of `r` and the walk stops right after `r`.
   */
  lemma {:induction false} IdsFromOfWalk(opt: seq<Option<int>>, r: seq<int>, k: nat)
    requires k <= |r| <= SLOTS && |r| <= |opt|
    requires forall j :: k <= j < |r| ==> opt[j] == Some(r[j])
    requires |r| < SLOTS ==> |r| < |opt| && opt[|r|].None?
    ensures IdsFrom(opt, k) == r[k..]
    decreases SLOTS - k
  {
    if k < |r| {
      IdsFromOfWalk(opt, r, k + 1);
      assert r[k..] == [r[k]] + r[k + 1..];
    }
  }

  /**
   * The stop rule: slots before the first one without an ID all contribute,
   * in order, and none from that slot on does.
   */
  lemma {:induction false} ParseIdsStopsAtFirstFailure(body: string, t: nat)
    requires t < SLOTS && t < |Split(body, '|')|
    requires forall k :: 0 <= k < t ==> SlotId(Split(body, '|')[k]).Some?
    requires SlotId(Split(body, '|')[t]).None?
    ensures |ParseIds(body)| == t
    ensures forall k :: 0 <= k < t ==> Some(ParseIds(body)[k]) == SlotId(Split(body, '|')[k])
  {
    ParseIdsSpec(body);
  }

  /** Ten slots that all hold an ID give exactly ten IDs. */
  lemma ParseIdsFullPage(body: string)
    requires |Split(body, '|')| >= SLOTS
    requires forall k :: 0 <= k < SLOTS ==> SlotId(Split(body, '|')[k]).Some?
    ensures |ParseIds(body)| == SLOTS
  {
    ParseIdsSpec(body);
  }

  /** The one-slot body "1:5" holds level 5, yet `parseData` as written reads slot 1. */
  lemma ShortBodyReadsPastEnd()
    ensures ParseIds("1:5") == [5]
    ensures !IndexSafe("1:5")
  {
    var slots := Split("1:5", '|');
    assert IndexOf("1:5", '|') == 3;
    assert slots == ["1:5"];
    assert IndexOf("1:5", ':') == 1;
    assert "1:5"[..1] == "1";
    assert "1:5"[2..] == "5";
    assert Split("5", ':') == ["5"];
    assert Split("1:5", ':') == ["1", "5"];
    StoiOfDecimal(5);
    assert ToDecimal(5) == "5";
    assert SlotId("1:5") == Some(5);
    assert SlotIds(slots) == [Some(5)];
  }

  /** An empty body has no slots, so no IDs. */
  lemma EmptyBodyIds()
    ensures ParseIds("") == []
  {
    assert Split("", '|') == [];
  }

  /** The slot `0:7` holds level 7 and contains no slot separator. */
  lemma SlotSeven()
    ensures SlotId("0:7") == Some(7) && '|' !in "0:7"
  {
    assert IndexOf("0:7", ':') == 1;
    assert "0:7"[..1] == "0" && "0:7"[2..] == "7";
    assert Split("7", ':') == ["7"];
    assert Split("0:7", ':') == ["0", "7"];
    StoiOfDecimal(7);
    assert ToDecimal(7) == "7";
  }

  /** A slot with an ID is not empty. */
  lemma SlotNotEmpty(a: string)
    requires SlotId(a).Some?
    ensures |a| > 0
  {
    assert |Split(a, ':')| >= 2;
  }

  /** A slot without a separator is one token. */
  lemma OneSlotSplit(a: string)
    requires |a| > 0 && '|' !in a
    ensures Split(a, '|') == [a]
  {
    IndexOfAfterToken(a, '|', []);
  }

  /** Three copies of a separator-free slot, separated by `|`, split into those three slots. */
  lemma ThreeSlotsSplit(a: string)
    requires |a| > 0 && '|' !in a
    ensures Split(a + ['|'] + (a + ['|'] + a), '|') == [a, a, a]
  {
    var x := a + ['|'] + a;
    OneSlotSplit(a);
    SplitAfterToken(a, '|', a);
    SplitAfterToken(a, '|', x);
  }

  /** Three copies of a slot holding `id` give that ID three times. */
  lemma ThreeSlots(a: string, id: int)
    requires SlotId(a) == Some(id) && '|' !in a
    ensures ParseIds(a + ['|'] + (a + ['|'] + a)) == [id, id, id]
  {
    SlotNotEmpty(a);
    ThreeSlotsSplit(a);
    var opt := SlotIds([a, a, a]);
    assert opt[0] == Some(id) && opt[1] == Some(id) && opt[2] == Some(id);
    ThreeIds(opt, id);
  }

  lemma ThreeIds(opt: seq<Option<int>>, id: int)
    requires |opt| == 3 && opt[0] == Some(id) && opt[1] == Some(id) && opt[2] == Some(id)
    ensures IdsFrom(opt, 0) == [id, id, id]
  {
    assert IdsFrom(opt, 3) == [];
    assert IdsFrom(opt, 2) == [id];
    assert IdsFrom(opt, 1) == [id, id];
  }
}

=== FILE: savedata.dfy ===
/**
 * The mod's save data, reached through `getSavedValue`/`setSavedValue` in
 * main.cpp: one `true` flag per recorded level (keyed by the level ID as
 * text), the resume pages `dailyPage`/`weeklyPage` and the import flag
 * `loaded`.  Also the operations on it that need no server: `loadFile`,
 * `wasDaily` and the insert done when the current daily/weekly is shown.
 */
module SaveData {
  import opened Options
  import opened Tokens
  import opened Numbers

  /** The two level feeds; the request uses type 21 for daily, 22 for weekly. */
  datatype Kind = Daily | Weekly

  /**
   * `levels` holds the IDs whose key is set.  Keys are `to_string(id)`,
   * which is injective (`Numbers.ToDecimalInjective`), so a set of IDs stands
   * for them.  Missing values read as 0 and `false`.
   */
  datatype Store = Store(levels: set<int>, dailyPage: int, weeklyPage: int, loaded: bool)
  {
    /** The saved resume page of a feed. */
    function Page(kind: Kind): int {
      if kind == Weekly then weeklyPage else dailyPage
    }

    function WithPage(kind: Kind, p: int): (s: Store)
      ensures s.Page(kind) == p
      ensures s.levels == levels && s.loaded == loaded
      ensures forall k :: k != kind ==> s.Page(k) == Page(k)
    {
      if kind == Weekly then this.(weeklyPage := p) else this.(dailyPage := p)
    }
  }

  /** Save data before the mod has ever written anything. */
  const Fresh := Store({}, 0, 0, false)

  /** `wasDaily`: whether the level has been recorded as a daily or weekly. */
  function WasDaily(s: Store, level: int): bool
  {
    level in s.levels
  }

  /** The ID a snapshot token adds: none for an empty or unparseable token. */
  function TokenId(token: string): Option<int>
  {
    if |token| == 0 then None else Stoi(token)
  }

  /** The tokens of one snapshot line. */
  function LineTokens(line: string): seq<string>
  {
    Split(line, ',')
  }

  /** Some non-empty token of the snapshot parses to `x`. */
  ghost predicate Listed(lines: seq<string>, x: int)
  {
    exists i, k :: 0 <= i < |lines| && 0 <= k < |LineTokens(lines[i])| && TokenId(LineTokens(lines[i])[k]) == Some(x)
  }

  /** No token of the snapshot makes `stoi` throw `std::out_of_range`. */
  predicate SnapshotFits(lines: seq<string>)
  {
    forall i, k :: 0 <= i < |lines| && 0 <= k < |LineTokens(lines[i])| ==> StoiFits(LineTokens(lines[i])[k])
  }

  /** The inner loop of `loadFile` from token `k` on. */
  function ImportTokens(tokens: seq<string>, k: nat, levels: set<int>): (r: set<int>)
    requires k <= |tokens|
    ensures levels <= r
    ensures forall j :: k <= j < |tokens| && TokenId(tokens[j]).Some? ==> TokenId(tokens[j]).value in r
    ensures forall x :: x in r ==> x in levels || exists j :: k <= j < |tokens| && TokenId(tokens[j]) == Some(x)
    decreases |tokens| - k
  {
    if k == |tokens| then levels
    else
      match TokenId(tokens[k])
      case None => ImportTokens(tokens, k + 1, levels)
      case Some(id) => ImportTokens(tokens, k + 1, levels + {id})
  }

  /** The outer loop of `loadFile` from line `i` on. */
  function ImportLines(lines: seq<string>, i: nat, levels: set<int>): (r: set<int>)
    requires i <= |lines|
    ensures levels <= r
    ensures forall x :: x in r ==>
      x in levels ||
      exists i', k :: i <= i' < |lines| && 0 <= k < |LineTokens(lines[i'])| && TokenId(LineTokens(lines[i'])[k]) == Some(x)
    decreases |lines| - i
  {
    if i == |lines| then levels
    else ImportLines(lines, i + 1, ImportTokens(LineTokens(lines[i]), 0, levels))
  }

  /**
   * `loadFile`: records every ID of the bundled snapshot, given as its lines
   * (a missing file reads as no lines), then sets `loaded` whatever happened.
   */
  function LoadFile(lines: seq<string>, s: Store): (r: Store)
    requires SnapshotFits(lines)
    ensures r.loaded
    ensures s.levels <= r.levels
    ensures forall x :: x in r.levels <==> x in s.levels || Listed(lines, x)
    ensures r.dailyPage == s.dailyPage && r.weeklyPage == s.weeklyPage
  {
    var levels := ImportLines(lines, 0, s.levels);
    ImportLinesRecordsAll(lines, 0, s.levels);
    s.(levels := levels, loaded := true)
  }

  /** Every ID on lines `i..` is recorded by the outer loop. */
  lemma {:induction false} ImportLinesRecordsAll(lines: seq<string>, i: nat, levels: set<int>)
    requires i <= |lines|
    ensures forall i', k ::
      i <= i' < |lines| && 0 <= k < |LineTokens(lines[i'])| && TokenId(LineTokens(lines[i'])[k]).Some? ==>
      TokenId(LineTokens(lines[i'])[k]).value in ImportLines(lines, i, levels)
    decreases |lines| - i
  {
    if i < |lines| {
      var next := ImportTokens(LineTokens(lines[i]), 0, levels);
      ImportLinesRecordsAll(lines, i + 1, next);
    }
  }

  /**
   * When a cell shows the current daily or weekly (its daily ID is not 0) and
   * the badge setting is on, that level is recorded before the lookup.
   */
  function RecordShownLevel(s: Store, badgeEnabled: bool, levelId: int, dailyId: int): (r: Store)
    ensures s.levels <= r.levels <= s.levels + {levelId}
    ensures r.(levels := s.levels) == s
    ensures badgeEnabled && dailyId != 0 ==> levelId in r.levels
    ensures !(badgeEnabled && dailyId != 0) ==> r == s
  {
    if badgeEnabled && dailyId != 0 then s.(levels := s.levels + {levelId}) else s
  }

  /** Nothing is a daily or weekly before anything was recorded. */
  lemma WasDailyFresh(level: int)
    ensures !WasDaily(Fresh, level)
  {
  }

  /** After `loadFile`, exactly the earlier levels and the snapshot's IDs are reported. */
  lemma WasDailyAfterImport(lines: seq<string>, s: Store, x: int)
    requires SnapshotFits(lines)
    ensures WasDaily(LoadFile(lines, s), x) <==> WasDaily(s, x) || Listed(lines, x)
  {
  }

  /** The shown current daily is reported from then on; no other answer changes. */
  lemma WasDailyAfterShown(s: Store, levelId: int, dailyId: int, x: int)
    ensures dailyId != 0 ==> WasDaily(RecordShownLevel(s, true, levelId, dailyId), levelId)
    ensures x != levelId ==> WasDaily(RecordShownLevel(s, true, levelId, dailyId), x) == WasDaily(s, x)
    ensures RecordShownLevel(s, false, levelId, dailyId) == s
  {
  }

  /** The snapshot line `1,2,x,3,` has the tokens 1, 2, x, 3: the trailing comma adds none. */
  lemma ExampleLineTokens()
    ensures LineTokens("1,2,x,3,") == ["1", "2", "x", "3"]
  {
    var tokens := ["1", "2", "x", "3"];
    assert Join(tokens, ',') + [','] == "1,2,x,3,";
    SplitOfJoinTrailing(tokens, ',');
  }

  /** How `stoi` reads the example's tokens. */
  lemma ExampleTokenIds()
    ensures Stoi("1") == Some(1) && Stoi("2") == Some(2) && Stoi("3") == Some(3)
    ensures Stoi("x") == None
    ensures TokenId("1") == Some(1) && TokenId("2") == Some(2) && TokenId("3") == Some(3)
    ensures TokenId("x") == None
  {
    StoiOfDecimal(1);
    StoiOfDecimal(2);
    StoiOfDecimal(3);
    assert ToDecimal(1) == "1" && ToDecimal(2) == "2" && ToDecimal(3) == "3";
    StoiNeedsDigit("x");
  }

  /** Importing those tokens records 1, 2 and 3 and skips `x`. */
  lemma ExampleImport()
    ensures ImportTokens(["1", "2", "x", "3"], 0, {}) == {1, 2, 3}
  {
    var tokens := ["1", "2", "x", "3"];
    ExampleTokenIds();
    assert ImportTokens(tokens, 4, {1, 2, 3}) == {1, 2, 3};
    assert ImportTokens(tokens, 3, {1, 2}) == {1, 2, 3};
    assert ImportTokens(tokens, 2, {1, 2}) == {1, 2, 3};
    assert ImportTokens(tokens, 1, {1}) == {1, 2, 3};
  }
}

=== FILE: sync.dfy ===
/**
 * The `saveLevels` callback of main.cpp: fetch one page of daily or weekly
 * levels, record its IDs until three of them turn out to be known already,
 * then either go on to the next page, stop because the page budget is used
 * up, or stop for the session and rewind to page 0.  Also the trigger in
 * `LevelBrowserLayer::init` that starts the import and both feeds.
 */
module Sync {
  import opened Options
  import opened Numbers
  import opened Parser
  import opened SaveData

  /** `maxPages` of `saveLevels`. */
  const MAX_PAGES: int := 3
  /** Known IDs on one page after which the page counts as already saved. */
  const DUPE_LIMIT: nat := 3

  /** What the server request resolves to: the response text or a transport error. */
  datatype Fetch = Response(text: string) | Failure(error: string)

  /** The save data plus the two session globals `dailySaved` and `weeklySaved`. */
  datatype Engine = Engine(store: Store, dailySaved: bool, weeklySaved: bool)
  {
    function Saved(kind: Kind): bool {
      if kind == Weekly then weeklySaved else dailySaved
    }

    function WithSaved(kind: Kind): (e: Engine)
      ensures e.Saved(kind) && e.store == store
      ensures forall k :: k != kind ==> e.Saved(k) == Saved(k)
    {
      if kind == Weekly then this.(weeklySaved := true) else this.(dailySaved := true)
    }
  }

  function Elems(s: seq<int>): set<int> {
    set x | x in s
  }

  /**
   * How many IDs of a page are already saved when the walk reaches them:
   * in `known`, or earlier on the same page (the walk saves as it goes).
   */
  function Dupes(ids: seq<int>, known: set<int>): nat
  {
    if |ids| == 0 then 0
    else
      var before := ids[..|ids| - 1];
      Dupes(before, known) + (if ids[|ids| - 1] in known + Elems(before) then 1 else 0)
  }

  /** The saved set after a page walk, and whether the walk saw fewer than three known IDs. */
  datatype PageWalk = PageWalk(known: set<int>, allNew: bool)

  /** The `for (int level : levelIDs)` loop from position `i` on, `dupes` known IDs seen so far. */
  function WalkFrom(ids: seq<int>, i: nat, known: set<int>, dupes: nat): (r: PageWalk)
    requires i <= |ids| && dupes < DUPE_LIMIT
    ensures known <= r.known <= known + Elems(ids)
    decreases |ids| - i
  {
    if i == |ids| then PageWalk(known, true)
    else
      var d := if ids[i] in known then dupes + 1 else dupes;
      if d >= DUPE_LIMIT then PageWalk(known, false)
      else WalkFrom(ids, i + 1, known + {ids[i]}, d)
  }

  function Walk(ids: seq<int>, known: set<int>): (r: PageWalk)
    ensures known <= r.known <= known + Elems(ids)
  {
    WalkFrom(ids, 0, known, 0)
  }

  lemma ElemsPrefix(ids: seq<int>, t: nat)
    requires t < |ids|
    ensures Elems(ids[..t + 1]) == Elems(ids[..t]) + {ids[t]}
  {
    assert ids[..t + 1] == ids[..t] + [ids[t]];
  }

  lemma DupesPrefix(ids: seq<int>, t: nat, known: set<int>)
    requires t < |ids|
    ensures Dupes(ids[..t + 1], known) == Dupes(ids[..t], known) + (if ids[t] in known + Elems(ids[..t]) then 1 else 0)
  {
    assert ids[..t + 1][..t] == ids[..t];
  }

  lemma {:induction false} DupesMonotone(ids: seq<int>, t: nat, known: set<int>)
    requires t <= |ids|
    ensures Dupes(ids[..t], known) <= Dupes(ids, known)
    decreases |ids|
  {
    if t < |ids| {
      var before := ids[..|ids| - 1];
      DupesMonotone(before, t, known);
      assert before[..t] == ids[..t];
    } else {
      assert ids[..t] == ids;
    }
  }

  /**
   * The walk from position `i`, entered with the save holding `known0` and
   * the page's first `i` IDs, and `dupes` counting the known ones among them.
   */
  lemma {:induction false} WalkFromSpec(ids: seq<int>, i: nat, known0: set<int>, known: set<int>, dupes: nat)
    requires i <= |ids| && dupes < DUPE_LIMIT
    requires known == known0 + Elems(ids[..i])
    requires dupes == Dupes(ids[..i], known0)
    ensures WalkFrom(ids, i, known, dupes).allNew <==> Dupes(ids, known0) < DUPE_LIMIT
    ensures WalkFrom(ids, i, known, dupes).allNew ==> WalkFrom(ids, i, known, dupes).known == known0 + Elems(ids)
    ensures !WalkFrom(ids, i, known, dupes).allNew ==>
      exists t :: i <= t < |ids| && Dupes(ids[..t], known0) == DUPE_LIMIT - 1 && ids[t] in known0 + Elems(ids[..t]) &&
        WalkFrom(ids, i, known, dupes).known == known0 + Elems(ids[..t])
    decreases |ids| - i
  {
    if i == |ids| {
      assert ids[..i] == ids;
    } else {
      DupesPrefix(ids, i, known0);
      ElemsPrefix(ids, i);
      var d := if ids[i] in known then dupes + 1 else dupes;
      assert d == Dupes(ids[..i + 1], known0);
      if d >= DUPE_LIMIT {
        assert WalkFrom(ids, i, known, dupes) == PageWalk(known, false);
        DupesMonotone(ids, i + 1, known0);
        assert Dupes(ids[..i], known0) == DUPE_LIMIT - 1 && ids[i] in known0 + Elems(ids[..i]);
      } else {
        assert WalkFrom(ids, i, known, dupes) == WalkFrom(ids, i + 1, known + {ids[i]}, d);
        WalkFromSpec(ids, i + 1, known0, known + {ids[i]}, d);
      }
    }
  }

  /**
   * The page walk saves the page's IDs in order and stops at the third
   * already-saved one.  With fewer than three, every ID is saved and the page
   * is all new; otherwise the IDs before the third known one are saved and
   * that one and all later ones are not.
   */
  lemma WalkSpec(ids: seq<int>, known: set<int>)
    ensures known <= Walk(ids, known).known
    ensures Walk(ids, known).allNew <==> Dupes(ids, known) < DUPE_LIMIT
    ensures Walk(ids, known).allNew ==> Walk(ids, known).known == known + Elems(ids)
    ensures !Walk(ids, known).allNew ==>
      exists t :: 0 <= t < |ids| && Dupes(ids[..t], known) == DUPE_LIMIT - 1 && ids[t] in known + Elems(ids[..t]) &&
        Walk(ids, known).known == known + Elems(ids[..t])
  {
    assert ids[..0] == [];
    assert Elems([]) == {};
    WalkFromSpec(ids, 0, known, known, 0);
  }

  /** IDs of the page found in `known`, counted by position. */
  function CountKnown(ids: seq<int>, known: set<int>): nat
  {
    if |ids| == 0 then 0
    else CountKnown(ids[..|ids| - 1], known) + (if ids[|ids| - 1] in known then 1 else 0)
  }

  /** On a page without repeats the walk's duplicates are the IDs saved before the page. */
  lemma {:induction false} DupesOfDistinct(ids: seq<int>, known: set<int>)
    requires forall a, b :: 0 <= a < b < |ids| ==> ids[a] != ids[b]
    ensures Dupes(ids, known) == CountKnown(ids, known)
    decreases |ids|
  {
    if |ids| > 0 {
      var before := ids[..|ids| - 1];
      DupesOfDistinct(before, known);
      assert ids[|ids| - 1] !in Elems(before);
    }
  }

  /** A page of distinct IDs, fewer than three of them already saved, is saved whole and counts as all new. */
  lemma FewKnownAllNew(ids: seq<int>, known: set<int>)
    requires forall a, b :: 0 <= a < b < |ids| ==> ids[a] != ids[b]
    requires CountKnown(ids, known) < DUPE_LIMIT
    ensures Walk(ids, known).allNew
    ensures Walk(ids, known).known == known + Elems(ids)
  {
    DupesOfDistinct(ids, known);
    WalkSpec(ids, known);
  }

  /** The result of one callback: recurse with this `pagesChecked`, or call `finalCallback(allNew)`. */
  datatype StepResult = Continue(engine: Engine, pagesChecked: int) | Finish(engine: Engine, allNew: bool)

  /**
   * The server's answer for a page past the last one, `-1`, compared
   * character by character.
   */
  predicate NoLevels(text: string) {
    |text| == 2 && text[0] == '-' && text[1] == '1'
  }

  lemma NoLevelsIsMinusOne(text: string)
    ensures NoLevels(text) <==> text == "-1"
  {
    if NoLevels(text) {
      assert text == ['-', '1'];
    }
  }

  /** The response, if any, parses without `stoi` throwing `std::out_of_range`. */
  predicate FetchFits(f: Fetch) {
    f.Response? ==> forall id <- ParseIds(f.text) :: IsInt32(id)
  }

  /**
   * One `saveLevels(pagesChecked, kind)` call, once its request resolved to
   * `fetch`.  The page is the one saved when the call was made.
   */
  function Step(kind: Kind, pagesChecked: int, fetch: Fetch, e: Engine): (r: StepResult)
    requires FetchFits(fetch)
    ensures e.store.levels <= r.engine.store.levels
    ensures forall x :: x in r.engine.store.levels ==> x in e.store.levels || (fetch.Response? && x in ParseIds(fetch.text))
    ensures r.engine.store.loaded == e.store.loaded
    ensures forall k :: k != kind ==> r.engine.store.Page(k) == e.store.Page(k) && r.engine.Saved(k) == e.Saved(k)
    ensures e.Saved(kind) ==> r.engine.Saved(kind)
    ensures r.Continue? ==> pagesChecked + 1 < MAX_PAGES && r.pagesChecked == pagesChecked + 2
    ensures r.engine.store.Page(kind) == e.store.Page(kind) || r.engine.store.Page(kind) == e.store.Page(kind) + 1 || r.engine.store.Page(kind) == 0
    ensures r.engine.Saved(kind) && !e.Saved(kind) ==> r.Finish? && !r.allNew && r.engine.store.Page(kind) == 0
  {
    var page := e.store.Page(kind);
    match fetch
    case Failure(_) => Finish(e, false)
    case Response(text) =>
      if NoLevels(text) then Finish(e, false)
      else
        var w := Walk(ParseIds(text), e.store.levels);
        var checked := pagesChecked + 1;
        var s := e.store.(levels := w.known);
        if w.allNew && checked < MAX_PAGES then
          Continue(e.(store := s.WithPage(kind, page + 1)), checked + 1)
        else if checked >= MAX_PAGES then
          Finish(e.(store := s.WithPage(kind, page + 1)), w.allNew)
        else
          Finish(e.(store := s.WithPage(kind, 0)).WithSaved(kind), w.allNew)
  }

  /** The outcome of a chain of calls: the state it left, the fetches it used, and the callback's value if it was reached. */
  datatype RunResult = RunResult(engine: Engine, used: nat, outcome: Option<bool>)

  predicate AllFit(fetches: seq<Fetch>) {
    forall k :: 0 <= k < |fetches| ==> FetchFits(fetches[k])
  }

  /**
   * The chain `saveLevels(pagesChecked, kind)` starts, the `n`-th request
   * resolving to `fetches[n]`.  When the fetches run out before the chain
   * ends, the outcome is `None`: the callback has not been reached yet.
   */
  function RunFrom(kind: Kind, pagesChecked: int, fetches: seq<Fetch>, n: nat, e: Engine): (r: RunResult)
    requires n <= |fetches| && AllFit(fetches)
    ensures n + r.used <= |fetches|
    ensures n < |fetches| ==> r.used >= 1
    ensures r.outcome.None? ==> n + r.used == |fetches|
    ensures e.store.levels <= r.engine.store.levels
    ensures forall x :: x in r.engine.store.levels ==>
      x in e.store.levels ||
      exists k :: n <= k < n + r.used && fetches[k].Response? && x in ParseIds(fetches[k].text)
    ensures r.engine.store.loaded == e.store.loaded
    ensures forall k :: k != kind ==> r.engine.store.Page(k) == e.store.Page(k) && r.engine.Saved(k) == e.Saved(k)
    ensures e.Saved(kind) ==> r.engine.Saved(kind)
    ensures n < |fetches| && Step(kind, pagesChecked, fetches[n], e).Finish? ==>
      r.used == 1 && r.outcome == Some(Step(kind, pagesChecked, fetches[n], e).allNew) &&
      r.engine == Step(kind, pagesChecked, fetches[n], e).engine
    ensures n + 1 < |fetches| && Step(kind, pagesChecked, fetches[n], e).Continue? ==> r.used >= 2
    decreases |fetches| - n
  {
    if n == |fetches| then RunResult(e, 0, None)
    else
      match Step(kind, pagesChecked, fetches[n], e)
      case Finish(e', allNew) => RunResult(e', 1, Some(allNew))
      case Continue(e', checked) =>
        var rest := RunFrom(kind, checked, fetches, n + 1, e');
        RunResult(rest.engine, rest.used + 1, rest.outcome)
  }

  /** `saveLevels(0, kind, callback)` as `init` issues it. */
  function Run(kind: Kind, fetches: seq<Fetch>, e: Engine): (r: RunResult)
    requires AllFit(fetches)
    ensures r.used <= |fetches|
    ensures |fetches| > 0 ==> r.used >= 1
    ensures e.store.levels <= r.engine.store.levels
    ensures r.engine.store.loaded == e.store.loaded
    ensures forall k :: k != kind ==> r.engine.store.Page(k) == e.store.Page(k) && r.engine.Saved(k) == e.Saved(k)
  {
    RunFrom(kind, 0, fetches, 0, e)
  }

  /** The import step of `init`: `loadFile` runs only while `loaded` is false. */
  function ImportIfDue(e: Engine, snapshot: seq<string>): (r: Engine)
    requires !e.store.loaded ==> SnapshotFits(snapshot)
    ensures r.store.loaded
    ensures e.store.levels <= r.store.levels
    ensures !e.store.loaded ==> forall x :: x in r.store.levels <==> x in e.store.levels || Listed(snapshot, x)
    ensures e.store.loaded ==> r == e
    ensures r.dailySaved == e.dailySaved && r.weeklySaved == e.weeklySaved
    ensures r.store.dailyPage == e.store.dailyPage && r.store.weeklyPage == e.store.weeklyPage
  {
    if !e.store.loaded then e.(store := LoadFile(snapshot, e.store)) else e
  }

  /** One feed step of `init`: the chain starts only while the session flag is false. */
  function SyncIfDue(kind: Kind, saved: bool, fetches: seq<Fetch>, e: Engine): (r: RunResult)
    requires !saved ==> AllFit(fetches)
    ensures saved ==> r.used == 0 && r.engine == e
    ensures !saved && |fetches| > 0 ==> r.used >= 1
    ensures !saved ==> r == Run(kind, fetches, e)
    ensures e.store.levels <= r.engine.store.levels
    ensures r.engine.store.loaded == e.store.loaded
    ensures forall k :: k != kind ==> r.engine.store.Page(k) == e.store.Page(k) && r.engine.Saved(k) == e.Saved(k)
    ensures e.Saved(kind) ==> r.engine.Saved(kind)
  {
    if !saved then Run(kind, fetches, e) else RunResult(e, 0, None)
  }

  /**
   * What one `LevelBrowserLayer::init` leaves behind: the state after the
   * import (if still due) and both feeds' chains, and how many requests each
   * feed made.
   */
  datatype Trigger = Trigger(engine: Engine, dailyUsed: nat, weeklyUsed: nat)

  /**
   * `LevelBrowserLayer::init`: import the snapshot unless `loaded`, then start
   * each feed whose session flag is still false.  The daily chain is run to
   * its end before the weekly one; both flags are read before either runs.
   */
  function BrowserInit(e: Engine, snapshot: seq<string>, daily: seq<Fetch>, weekly: seq<Fetch>): (r: Trigger)
    requires !e.store.loaded ==> SnapshotFits(snapshot)
    requires !e.dailySaved ==> AllFit(daily)
    requires !e.weeklySaved ==> AllFit(weekly)
    ensures r.engine.store.loaded
    ensures e.store.levels <= r.engine.store.levels
    ensures !e.store.loaded ==> forall x :: Listed(snapshot, x) ==> x in r.engine.store.levels
    ensures e.dailySaved ==> r.dailyUsed == 0 && r.engine.dailySaved && r.engine.store.dailyPage == e.store.dailyPage
    ensures e.weeklySaved ==> r.weeklyUsed == 0 && r.engine.weeklySaved && r.engine.store.weeklyPage == e.store.weeklyPage
    ensures !e.dailySaved && |daily| > 0 ==> r.dailyUsed >= 1
    ensures !e.weeklySaved && |weekly| > 0 ==> r.weeklyUsed >= 1
  {
    var e1 := ImportIfDue(e, snapshot);
    var d := SyncIfDue(Daily, e.dailySaved, daily, e1);
    assert d.engine.store.Page(Weekly) == e1.store.Page(Weekly) && d.engine.Saved(Weekly) == e1.Saved(Weekly);
    var w := SyncIfDue(Weekly, e.weeklySaved, weekly, d.engine);
    assert w.engine.store.Page(Daily) == d.engine.store.Page(Daily) && w.engine.Saved(Daily) == d.engine.Saved(Daily);
    Trigger(w.engine, d.used, w.used)
  }

  /** A `-1` response or a failed request calls back `false` and changes nothing. */
  lemma StepNoPage(kind: Kind, pagesChecked: int, fetch: Fetch, e: Engine)
    requires fetch.Failure? || NoLevels(fetch.text)
    ensures Step(kind, pagesChecked, fetch, e) == Finish(e, false)
  {
  }

  /** On a page, the save afterwards is what the page walk left. */
  lemma StepRecordsPage(kind: Kind, pagesChecked: int, text: string, e: Engine)
    requires !NoLevels(text) && FetchFits(Response(text))
    ensures var ids := ParseIds(text);
      var r := Step(kind, pagesChecked, Response(text), e);
      (Dupes(ids, e.store.levels) < DUPE_LIMIT ==> r.engine.store.levels == e.store.levels + Elems(ids)) &&
      (Dupes(ids, e.store.levels) >= DUPE_LIMIT ==>
        exists t :: 0 <= t < |ids| && Dupes(ids[..t], e.store.levels) == DUPE_LIMIT - 1 &&
          r.engine.store.levels == e.store.levels + Elems(ids[..t]))
  {
    var ids := ParseIds(text);
    StepSavesWalk(kind, pagesChecked, text, e);
    WalkSpec(ids, e.store.levels);
  }

  lemma StepSavesWalk(kind: Kind, pagesChecked: int, text: string, e: Engine)
    requires !NoLevels(text) && FetchFits(Response(text))
    ensures Step(kind, pagesChecked, Response(text), e).engine.store.levels == Walk(ParseIds(text), e.store.levels).known
  {
  }

  /**
   * The continue branch: taken exactly when the page was all new and, after
   * `pagesChecked++`, fewer than `maxPages` pages are counted.  It saves the
   * next page and recurses with `pagesChecked + 1` on top of that increment.
   */
  lemma StepContinue(kind: Kind, pagesChecked: int, text: string, e: Engine)
    requires !NoLevels(text) && FetchFits(Response(text))
    ensures var r := Step(kind, pagesChecked, Response(text), e);
      (r.Continue? <==> Walk(ParseIds(text), e.store.levels).allNew && pagesChecked + 1 < MAX_PAGES) &&
      (r.Continue? ==>
        r.pagesChecked == pagesChecked + 2 && r.engine.store.Page(kind) == e.store.Page(kind) + 1 &&
        r.engine.Saved(kind) == e.Saved(kind))
  {
  }

  /**
   * The budget branch: once `pagesChecked` reaches `maxPages` the next page
   * is saved, the callback gets the page's `allNew`, and the session flag is
   * left alone.
   */
  lemma StepBudget(kind: Kind, pagesChecked: int, text: string, e: Engine)
    requires !NoLevels(text) && FetchFits(Response(text))
    requires pagesChecked + 1 >= MAX_PAGES
    ensures var r := Step(kind, pagesChecked, Response(text), e);
      r.Finish? && r.allNew == Walk(ParseIds(text), e.store.levels).allNew &&
      r.engine.store.Page(kind) == e.store.Page(kind) + 1 && r.engine.Saved(kind) == e.Saved(kind)
  {
  }

  /**
   * The reset branch: a page with three known IDs inside the budget rewinds
   * the feed to page 0 and sets its session flag; it is the only branch that
   * sets the flag.
   */
  lemma StepReset(kind: Kind, pagesChecked: int, fetch: Fetch, e: Engine)
    requires FetchFits(fetch)
    ensures var r := Step(kind, pagesChecked, fetch, e);
      (fetch.Response? && !NoLevels(fetch.text) && !Walk(ParseIds(fetch.text), e.store.levels).allNew && pagesChecked + 1 < MAX_PAGES ==>
        r.Finish? && !r.allNew && r.engine.store.Page(kind) == 0 && r.engine.Saved(kind)) &&
      (r.engine.Saved(kind) && !e.Saved(kind) ==>
        fetch.Response? && !NoLevels(fetch.text) && !Walk(ParseIds(fetch.text), e.store.levels).allNew && pagesChecked + 1 < MAX_PAGES)
  {
  }

  /**
   * Because the continue branch adds two to `pagesChecked`, a chain started
   * by `init` makes at most two requests, always ends once it got two
   * answers, and moves the saved page forward by at most two (or rewinds it
   * to 0).
   */
  lemma {:induction false} RunBudget(kind: Kind, fetches: seq<Fetch>, e: Engine)
    requires AllFit(fetches)
    ensures Run(kind, fetches, e).used <= 2
    ensures |fetches| >= 2 ==> Run(kind, fetches, e).outcome.Some?
    ensures var p := Run(kind, fetches, e).engine.store.Page(kind);
      p == 0 || e.store.Page(kind) <= p <= e.store.Page(kind) + 2
  {
    if |fetches| > 0 {
      var first := Step(kind, 0, fetches[0], e);
      if first.Continue? {
        assert first.pagesChecked == 2;
        LastRun(kind, fetches, 1, first.engine);
      }
    }
  }

  /**
   * Two pages in a row: when the first is all new the chain goes on to the
   * second, which uses up the budget, so the feed advances by two pages,
   * keeps its session flag, and the callback gets the second page's `allNew`.
   */
  lemma RunTwoPages(kind: Kind, t1: string, t2: string, fetches: seq<Fetch>, e: Engine)
    requires |fetches| >= 2 && fetches[0] == Response(t1) && fetches[1] == Response(t2)
    requires AllFit(fetches)
    requires !NoLevels(t1) && !NoLevels(t2)
    requires Walk(ParseIds(t1), e.store.levels).allNew
    ensures var r := Run(kind, fetches, e);
      var w2 := Walk(ParseIds(t2), Walk(ParseIds(t1), e.store.levels).known);
      r.used == 2 && r.outcome == Some(w2.allNew) && r.engine.store.levels == w2.known &&
      r.engine.store.Page(kind) == e.store.Page(kind) + 2 && r.engine.Saved(kind) == e.Saved(kind)
  {
    assert FetchFits(fetches[0]) && FetchFits(fetches[1]);
    var first := Step(kind, 0, Response(t1), e);
    StepContinue(kind, 0, t1, e);
    StepSavesWalk(kind, 0, t1, e);
    assert first.Continue? && first.pagesChecked == 2;
    var e1 := first.engine;
    var second := Step(kind, 2, Response(t2), e1);
    StepBudget(kind, 2, t2, e1);
    StepSavesWalk(kind, 2, t2, e1);
    var tail := RunFrom(kind, 2, fetches, 1, e1);
    assert tail.used == 1 && tail.engine == second.engine && tail.outcome == Some(second.allNew);
  }

  /**
   * Convergence: a first page that is not all new ends the chain at once,
   * rewinding the feed to page 0, setting its session flag and calling back
   * `false`, with the page's walk saved.
   */
  lemma RunConverges(kind: Kind, t: string, fetches: seq<Fetch>, e: Engine)
    requires |fetches| >= 1 && fetches[0] == Response(t)
    requires AllFit(fetches)
    requires !NoLevels(t)
    requires !Walk(ParseIds(t), e.store.levels).allNew
    ensures var r := Run(kind, fetches, e);
      r.used == 1 && r.outcome == Some(false) && r.engine.Saved(kind) && r.engine.store.Page(kind) == 0 &&
      r.engine.store.levels == Walk(ParseIds(t), e.store.levels).known
  {
    assert FetchFits(fetches[0]);
    StepReset(kind, 0, fetches[0], e);
    StepSavesWalk(kind, 0, t, e);
  }

  /** A chain called with `pagesChecked` of 2 ends after one answer. */
  lemma LastRun(kind: Kind, fetches: seq<Fetch>, n: nat, e: Engine)
    requires n <= |fetches| && AllFit(fetches)
    ensures RunFrom(kind, 2, fetches, n, e).used <= 1
    ensures n < |fetches| ==> RunFrom(kind, 2, fetches, n, e).outcome.Some?
    ensures var p := RunFrom(kind, 2, fetches, n, e).engine.store.Page(kind);
      p == 0 || p == e.store.Page(kind) || p == e.store.Page(kind) + 1
  {
    if n < |fetches| {
      var step := Step(kind, 2, fetches[n], e);
      assert step.Finish?;
    }
  }

  /**
   * `init` converges the daily feed when its first page shows three saved
   * IDs: one request, the daily page back at 0 and the flag set, so that
   * the next `init` leaves the feed alone (`ConvergedFeedIsQuiet`).
   */
  lemma InitConvergesDaily(e: Engine, snapshot: seq<string>, t: string, daily: seq<Fetch>, weekly: seq<Fetch>)
    requires !e.store.loaded ==> SnapshotFits(snapshot)
    requires !e.dailySaved && AllFit(daily)
    requires !e.weeklySaved ==> AllFit(weekly)
    requires |daily| >= 1 && daily[0] == Response(t) && !NoLevels(t)
    requires !Walk(ParseIds(t), ImportIfDue(e, snapshot).store.levels).allNew
    ensures var r := BrowserInit(e, snapshot, daily, weekly);
      r.dailyUsed == 1 && r.engine.dailySaved && r.engine.store.dailyPage == 0
  {
    var e1 := ImportIfDue(e, snapshot);
    RunConverges(Daily, t, daily, e1);
  }

  /**
   * Mirror of `InitConvergesDaily` for the weekly feed, with the daily feed
   * already synced this session.
   */
  lemma InitConvergesWeekly(e: Engine, snapshot: seq<string>, t: string, daily: seq<Fetch>, weekly: seq<Fetch>)
    requires !e.store.loaded ==> SnapshotFits(snapshot)
    requires e.dailySaved
    requires !e.weeklySaved && AllFit(weekly)
    requires |weekly| >= 1 && weekly[0] == Response(t) && !NoLevels(t)
    requires !Walk(ParseIds(t), ImportIfDue(e, snapshot).store.levels).allNew
    ensures var r := BrowserInit(e, snapshot, daily, weekly);
      r.weeklyUsed == 1 && r.engine.weeklySaved && r.engine.store.weeklyPage == 0
  {
    var e1 := ImportIfDue(e, snapshot);
    RunConverges(Weekly, t, weekly, e1);
  }

  /**
   * The chain scenarios above have inputs: the empty page is all new, and a
   * page of three slots holding the same saved level is not.
   */
  lemma ChainScenariosReachable(a: string)
    requires SlotId(a) == Some(7) && '|' !in a
    ensures !NoLevels("") && FetchFits(Response("")) && Walk(ParseIds(""), {}).allNew
    ensures var t := a + ['|'] + (a + ['|'] + a);
      !NoLevels(t) && FetchFits(Response(t)) && !Walk(ParseIds(t), {7}).allNew
  {
    EmptyBodyIds();
    assert Walk([], {}) == PageWalk({}, true);
    ThreeSlots(a, 7);
    assert WalkFrom([7, 7, 7], 2, {7}, 2) == PageWalk({7}, false);
    assert WalkFrom([7, 7, 7], 1, {7}, 1) == PageWalk({7}, false);
  }

  /** Such a slot exists: `0:7`. */
  lemma ConvergingPageExists()
    ensures exists a :: SlotId(a) == Some(7) && '|' !in a
  {
    SlotSeven();
  }

  /** A feed that converged stays quiet: the next `init` makes no request for it. */
  lemma ConvergedFeedIsQuiet(e: Engine, snapshot: seq<string>, daily: seq<Fetch>, weekly: seq<Fetch>,
                             snapshot2: seq<string>, daily2: seq<Fetch>, weekly2: seq<Fetch>)
    requires !e.store.loaded ==> SnapshotFits(snapshot)
    requires !e.dailySaved ==> AllFit(daily)
    requires !e.weeklySaved ==> AllFit(weekly)
    requires !BrowserInit(e, snapshot, daily, weekly).engine.weeklySaved ==> AllFit(weekly2)
    ensures var e2 := BrowserInit(e, snapshot, daily, weekly).engine;
      e2.dailySaved ==> BrowserInit(e2, snapshot2, daily2, weekly2).dailyUsed == 0
  {
  }

  /** Once `loaded` is set the snapshot no longer matters: `init` behaves as if it were empty. */
  lemma ImportRunsOnce(e: Engine, snapshot: seq<string>, daily: seq<Fetch>, weekly: seq<Fetch>)
    requires e.store.loaded
    requires !e.dailySaved ==> AllFit(daily)
    requires !e.weeklySaved ==> AllFit(weekly)
    ensures BrowserInit(e, snapshot, daily, weekly) == BrowserInit(e, [], daily, weekly)
  {
  }

  /**
   * `wasDaily` after a chain: every level reported before is still
   * reported, and a level is reported only if it was before or appeared on
   * a page the chain fetched.
   */
  lemma WasDailyAfterRun(kind: Kind, fetches: seq<Fetch>, e: Engine, level: int)
    requires AllFit(fetches)
    ensures WasDaily(e.store, level) ==> WasDaily(Run(kind, fetches, e).engine.store, level)
    ensures WasDaily(Run(kind, fetches, e).engine.store, level) ==>
      WasDaily(e.store, level) || exists k :: 0 <= k < |fetches| && fetches[k].Response? && level in ParseIds(fetches[k].text)
  {
  }

  /**
   * A worked example: the page 5, 7, 9, 11 against saved
   * 7, 9, 11 stops at 11, the third known ID, after saving 5; the page is
   * not all new.
   */
  lemma WalkExample()
    ensures Walk([5, 7, 9, 11], {7, 9, 11}) == PageWalk({5, 7, 9, 11}, false)
  {
    var ids := [5, 7, 9, 11];
    assert WalkFrom(ids, 3, {5, 7, 9, 11}, 2) == PageWalk({5, 7, 9, 11}, false);
    assert WalkFrom(ids, 2, {5, 7, 9, 11}, 1) == PageWalk({5, 7, 9, 11}, false);
    assert WalkFrom(ids, 1, {5, 7, 9, 11}, 0) == PageWalk({5, 7, 9, 11}, false);
  }
}

=== FILE: tokens.dfy ===
/**
 * The line splitter of funcs.hpp (`splitString`), which reads tokens with
 * `std::getline(stream, token, delim)` until extraction fails.  With these
 * semantics empty input yields no token, and a trailing delimiter ends the
 * last token without starting an empty one.
 */
module Tokens {

  /** Position of the first `d` in `s`, or `|s|` when `s` has none. */
  function IndexOf(s: string, d: char): (i: nat)
    ensures i <= |s|
    ensures i < |s| ==> s[i] == d
    ensures forall j :: 0 <= j < i ==> s[j] != d
  {
    if |s| == 0 then 0
    else if s[0] == d then 0
    else 1 + IndexOf(s[1..], d)
  }

  /** `splitString(s, d)`: each `getline` call reads up to the next `d` and consumes it. */
  function Split(s: string, d: char): (r: seq<string>)
    ensures |r| == 0 <==> |s| == 0
    decreases |s|
  {
    if |s| == 0 then []
    else
      var i := IndexOf(s, d);
      if i == |s| then [s] else [s[..i]] + Split(s[i + 1..], d)
  }

  /** No token contains the delimiter. */
  lemma {:induction false} SplitHasNoDelimiter(s: string, d: char)
    ensures forall t <- Split(s, d) :: d !in t
    decreases |s|
  {
    if |s| > 0 {
      var i := IndexOf(s, d);
      if i < |s| {
        SplitHasNoDelimiter(s[i + 1..], d);
        assert forall j :: 0 <= j < i ==> s[..i][j] == s[j];
      }
    }
  }

  /** The tokens put back together with one `d` between neighbours. */
  function Join(ts: seq<string>, d: char): string
  {
    if |ts| == 0 then []
    else if |ts| == 1 then ts[0]
    else ts[0] + [d] + Join(ts[1..], d)
  }

  lemma IndexOfAfterToken(a: string, d: char, x: string)
    requires d !in a
    ensures IndexOf(a + [d] + x, d) == |a|
    ensures IndexOf(a, d) == |a|
  {
    var s := a + [d] + x;
    assert forall j :: 0 <= j < |a| ==> s[j] == a[j];
    assert s[|a|] == d;
  }

  /** Splitting a token followed by `d` and more text peels off that token. */
  lemma SplitAfterToken(a: string, d: char, x: string)
    requires d !in a
    ensures Split(a + [d] + x, d) == [a] + Split(x, d)
  {
    var s := a + [d] + x;
    IndexOfAfterToken(a, d, x);
    assert s[..|a|] == a;
    assert s[|a| + 1..] == x;
  }

  /**
   * Splitting loses nothing but the one trailing delimiter: joining the
   * tokens gives the input back, followed by `d` when the input ended in `d`.
   */
  lemma {:induction false} JoinOfSplit(s: string, d: char)
    ensures |s| == 0 ==> Split(s, d) == []
    ensures |s| > 0 && s[|s| - 1] == d ==> Join(Split(s, d), d) + [d] == s
    ensures |s| > 0 && s[|s| - 1] != d ==> Join(Split(s, d), d) == s
    decreases |s|
  {
    if |s| > 0 {
      var i := IndexOf(s, d);
      if i == |s| {
        assert Split(s, d) == [s];
      } else {
        var a, rest := s[..i], s[i + 1..];
        SplitAtFirst(s, d);
        if |rest| == 0 {
          assert Split(s, d) == [a];
          assert s == a + [d];
        } else {
          JoinOfSplit(rest, d);
          JoinCons(a, Split(rest, d), d);
          assert rest[|rest| - 1] == s[|s| - 1];
          if s[|s| - 1] == d {
            assert Join(Split(s, d), d) + [d] == a + [d] + (Join(Split(rest, d), d) + [d]);
          } else {
            assert Join(Split(s, d), d) == a + [d] + Join(Split(rest, d), d);
          }
        }
      }
    }
  }

  /** Splitting at the first delimiter: the text is the first token, `d`, and the rest. */
  lemma SplitAtFirst(s: string, d: char)
    requires IndexOf(s, d) < |s|
    ensures s == s[..IndexOf(s, d)] + [d] + s[IndexOf(s, d) + 1..]
    ensures Split(s, d) == [s[..IndexOf(s, d)]] + Split(s[IndexOf(s, d) + 1..], d)
  {
    var i := IndexOf(s, d);
    assert s == s[..i] + [s[i]] + s[i + 1..];
  }

  lemma JoinCons(a: string, r: seq<string>, d: char)
    requires |r| > 0
    ensures Join([a] + r, d) == a + [d] + Join(r, d)
  {
    assert ([a] + r)[1..] == r;
  }

  /**
   * The converse round trip: delimiter-free tokens, joined and followed by
   * one delimiter, split back into exactly those tokens.
   */
  lemma {:induction false} SplitOfJoinTrailing(ts: seq<string>, d: char)
    requires |ts| > 0
    requires forall k :: 0 <= k < |ts| ==> d !in ts[k]
    ensures Split(Join(ts, d) + [d], d) == ts
    decreases |ts|
  {
    if |ts| == 1 {
      SplitAfterToken(ts[0], d, []);
      assert ts[0] + [d] == ts[0] + [d] + [];
    } else {
      var rest := ts[1..];
      assert ts == [ts[0]] + rest;
      SplitOfJoinTrailing(rest, d);
      var j := Join(rest, d);
      JoinCons(ts[0], rest, d);
      assert Join(ts, d) + [d] == ts[0] + [d] + (j + [d]);
      SplitAfterToken(ts[0], d, j + [d]);
    }
  }

  /**
   * Without the trailing delimiter the round trip holds when the last
   * token is not empty (an empty last token would have nothing to read).
   */
  lemma {:induction false} SplitOfJoin(ts: seq<string>, d: char)
    requires |ts| > 0 && |ts[|ts| - 1]| > 0
    requires forall k :: 0 <= k < |ts| ==> d !in ts[k]
    ensures Split(Join(ts, d), d) == ts
    decreases |ts|
  {
    if |ts| == 1 {
      IndexOfAfterToken(ts[0], d, []);
    } else {
      var rest := ts[1..];
      SplitOfJoin(rest, d);
      var j := Join(rest, d);
      assert Join(ts, d) == ts[0] + [d] + j;
      SplitAfterToken(ts[0], d, j);
      assert [ts[0]] + rest == ts;
    }
  }
}
